=== FILE: README.md ===
# In-memory card ledger

A Dafny model of the ledger core of a small banking back end (`database.js`):
users, payment cards in USD/EUR/UAH, and the history of money operations on
each card. The source keeps all state in static registries; here the whole
state is one immutable `State.Store` value and every operation is a pure
function from a store to a new store and an outcome (`Ok` for the source's
empty error string, `Err(e)` for a message).

Modules, leaves first:

- `Currencies` — the fixed 3×3 rate table and `Convert` (exact decimal rates).
- `Results` — `Option`, the error conditions, `Outcome`.
- `Operations` — the append-only per-card operation log (`Operation.add`/`get`).
- `State` — the `Card` and `User` records and the `Store`. Records live in
  heaps (cards by allocation position, users by their never-reused id) and the
  indexes hold those identities, which is how the source's shared object
  references between its indexes are represented. `Valid` is the
  representation invariant; `Empty()` establishes it and every operation
  keeps it (each operation's contract says so).
- `Cards` — the card registry: `Create`, `GetByCardNumber`, `GetByUserId`,
  `Update`, `Delete`, `Withdraw`, `TopUp`, `Transfer`.
- `Users` — the user registry: `Create`, `Login`, `GetById`, `GetByPhone`,
  `Update`, `Delete` with its card cascade `DeleteCards`.
- `CardFacts`, `UserFacts` — lemmas relating several operations.

The clock and the card-number generator are parameters: every operation that
reads the time takes `now` (epoch seconds), and `Cards.Create` takes the new
card number, which must be absent from the by-number index and lie in the
generator's band (16 digits, 7770000000000000 ..= 7776999999999999).

The source's behaviour is kept as written where it departs from what its own
names and messages say it intends, and each departure is stated as a lemma:

- `Card.delete` rebuilds the owner's list with a filter callback that returns
  nothing, so the owner's whole list is emptied (`CardFacts.DeleteEmptiesOwnerList`).
- `withdraw` converts the amount into the card's currency and then, in the
  balance check, converts it back again, so a cross-currency withdrawal can
  overdraw (`CardFacts.WithdrawCrossCurrencyOverdraws`), although the check
  is named `#isWithdrawPossible` and its refusal reads "Not enough funds on
  card balance" (database.js:215, 307-320).
- `transfer` looks the "target" card up under the source number, so the
  target's active/expiry gate is only met by the top-up leg, after the source
  is already debited (`CardFacts.TransferToUnavailableTargetDebitsSource`),
  although the variable is called `targetCard` (database.js:267) and the line
  just before checks that `targetCardNumber` exists (database.js:263). As a side effect
  the intermediate "converted" amount equals the original amount, and the
  top-up leg performs the one and only conversion.
- `update` merges any present field, including `balance`, `userId` and
  `phone`, and re-synchronises no index (`CardFacts.UpdateDoesNotReindex`,
  `UserFacts.UpdatePhoneDoesNotReindex`).
- The phone index is last-write-wins (`UserFacts.PhoneLastWriteWins`), and
  deleting a shadowed user removes the entry of the user who shadowed it
  (`UserFacts.DeleteShadowedUserUnindexesPhone`).

## Model

| member | source | states |
|---|---|---|
| `Currencies.Rate` | database.js:5-17 | every rate is positive, and a rate is 1 exactly for the identity pairs |
| `Currencies.Convert` | database.js:332-336 | converting within one currency is the identity; zero stays zero and the sign of the amount is kept |
| `Currencies.ConvertMonotonic` | database.js:332-336 | conversion preserves the order of amounts (every rate is positive) |
| `Currencies.RoundTripDrifts` | database.js:5-17 | for every pair of distinct currencies, converting a non-zero amount there and back does not give it back |
| `Currencies.UsdEurRoundTrip` | database.js:5-17 | 100 USD converted to EUR and back is 100.004 USD |
| `Operations.History` | database.js:52-59 | an unknown card has the empty history |
| `Operations.Add` | database.js:40-50 | the new operation is returned and appended at the end of the card's history (created on first use); every other card's history is unchanged |
| `Operations.AddKeepsOrder` | database.js:41-50 | two additions to one card appear in the order they were made |
| `State.CardNumberBand` | database.js:108-118 | a 16-digit string passes the card-number test (prefix "777", then a digit from 0 to 6) exactly when the number it spells lies in the generator's band 7770000000000000 ..= 7776999999999999 |
| `State.Empty` | database.js:25-69 | the initial store has an empty operation log (database.js:25), no cards and empty by-number and by-user indexes (database.js:67-69), no users, empty by-id and by-phone indexes and no user ids handed out (the user registry's initial values at database.js:344-346), and satisfies the representation invariant |
| `Cards.Post` | database.js:218-223 | the balance of the card moves by the delta, the operation is appended to its history, and nothing but that balance and that history changes |
| `Cards.Merge` | database.js:195-199 | the number stays; an empty patch leaves the card as it was; a patch carrying every field replaces every field but the number |
| `Cards.IsExpired` | database.js:298-305 | a card is expired exactly from `expiresEnd` on, including an `expiresEnd` rewritten by an update; for a card whose term is the one set at issue, that is exactly when seven years of seconds have passed since `validFrom` |
| `Cards.IsTopUpPossible` | database.js:322-330 | an inactive card and an expired card can never be topped up, and an active card before its `expiresEnd` always can; no amount or balance is consulted |
| `Cards.IsWithdrawPossible` | database.js:307-320 | it passes exactly when the top-up gate passes and the balance covers the amount multiplied by the rate from the card's currency into the requested one (the re-conversion of line 316); in the card's own currency that is balance ≥ amount |
| `Cards.GetByCardNumber` | database.js:178-185 | a card is returned exactly when its number is indexed, and it carries that number |
| `Cards.GetByUserId` | database.js:169-176 | a user without a list gets the empty sequence; otherwise one card per list entry |
| `Cards.Create` | database.js:84-105 | the card has the given number, owner and currency, balance 0, active, name "" when absent, validFrom = now and a 7×31536000-second term; it is found by its number afterwards, no other number changes, the log and users are untouched |
| `Cards.Delete` | database.js:150-167 | unknown number: error and no change; owner without a list: error and no change; otherwise the number leaves the index, the owner's list becomes empty, other lists, card records and the history are kept |
| `Cards.Update` | database.js:187-202 | unknown number: error and no change; otherwise each present field overwrites the stored one and each absent field is kept, no other card changes and no index is touched |
| `Cards.Withdraw` | database.js:204-226 | unknown card: error, no change; succeeds exactly when the card is active, unexpired and its balance covers the re-converted amount; on failure nothing changes; on success the balance drops by the converted amount and one operation of that negative amount (default type `withdraw`, default date now) is appended; in every case only balances and the log can change |
| `Cards.TopUp` | database.js:228-249 | unknown card: error, no change; succeeds exactly when the card is active and unexpired; on failure nothing changes; on success the balance rises by the converted amount and one operation of that amount (default type `topup`) is appended; in every case only balances and the log can change |
| `Cards.Mask` | database.js:274-282 | the masked number shows digits 0 and 1, then `**`, then digits 14 and 15 |
| `Cards.Transfer` | database.js:251-291 | the checks run in order (source exists; source active, unexpired, covering the amount; target exists), each failure returning its error with no change; the transfer succeeds exactly when all pass and the target is active and unexpired; only balances and the log can change |
| `CardFacts.CreateAppendsToOwner` | database.js:98-104 | the new card is appended at the end of its owner's list; every other user's list is unchanged |
| `CardFacts.WithdrawSameCurrency` | database.js:307-320 | in the card's own currency a withdrawal succeeds exactly when active, unexpired and covered, and then leaves the balance reduced by the amount and non-negative |
| `CardFacts.WithdrawOverdraftRefused` | database.js:213-216 | a same-currency withdrawal above the balance is refused with the not-enough-funds error and changes nothing |
| `CardFacts.WithdrawSmallerAmountPasses` | database.js:307-320 | when a withdrawal passes the gate, a smaller one in the same currency from the same state passes too |
| `CardFacts.WithdrawCrossCurrencyOverdraws` | database.js:211-218 | because the check at line 316 converts the amount back, 100 USD from a UAH card holding 100 succeeds and leaves -3570 |
| `CardFacts.TopUpThenWithdrawRestores` | database.js:228-249 | when the card's balance is not negative and a same-currency top-up succeeds, a withdrawal of the same amount at the same time succeeds, restores the card record exactly, and the history gains +amount then -amount (from a negative balance the withdrawal can be refused at line 317) |
| `CardFacts.TransferMovesFunds` | database.js:274-290 | when the source covers the amount and both cards are active and unexpired, a transfer between two cards succeeds, debits the source by the amount, credits the target with the amount converted to its currency, appends a `transfer_to` and a `transfer_from` operation with masked counterparties, and changes no other card or history |
| `CardFacts.TransferToSelf` | database.js:251-291 | a transfer from a card to itself that passes the source gate succeeds, leaves the card unchanged and logs both legs on it |
| `CardFacts.TransferToUnavailableTargetDebitsSource` | database.js:267-288 | with an inactive or expired target the source is still debited and logged, the target is unchanged, and the top-up error is returned |
| `CardFacts.DeleteEmptiesOwnerList` | database.js:158-164 | deleting one card of a user leaves the user's other card findable by number but empties the user's list |
| `CardFacts.UpdateDoesNotReindex` | database.js:193-199 | an update carrying `userId` and `balance` sets both outright and the card stays in its former owner's list |
| `CardFacts.MaskHidesMiddle` | database.js:274 | two numbers agreeing on digits 0, 1, 14 and 15 have the same mask |
| `Users.GetById` | database.js:462-469 | a user is returned exactly when the id is live, and it carries that id |
| `Users.GetByPhone` | database.js:471-478 | a user record is returned exactly when the phone is indexed; it carries the id the phone index points at, and when that id is still live it is the same record `GetById` returns for it |
| `Users.Create` | database.js:358-379 | the user gets the id one above the last and above every id handed out, keeps the given fields, is found by id and by phone; no other id or phone changes and the card registry is untouched |
| `Users.Login` | database.js:382-396 | succeeds exactly when the phone is indexed and the indexed record's password matches; every failure is the same credentials error |
| `Users.Update` | database.js:445-460 | unknown id: error and no change; otherwise present fields overwrite and absent ones are kept, the id stays, no other user changes and neither index is touched |
| `Users.Merge` | database.js:453-457 | the id stays; an empty patch leaves the user as it was; a patch carrying every field replaces every field but the id |
| `Users.OwnedNumbers` | database.js:433-436 | one number per entry of the user's by-user list, in list order, each the number of the card record `getByUserId` returns at that position |
| `Users.DeleteCards` | database.js:435-442 | when every delete succeeds exactly the listed numbers have left the index; on an error, exactly the numbers before some position k have left it and the error is the one deleting the k-th number reports in the resulting store (the cascade stops there); the log, card records and users are untouched |
| `Users.Delete` | database.js:416-443 | unknown id: error and no change; otherwise the id and the user's phone entry are removed whatever the cascade's outcome; card records and the log are kept and no number is added to the index; on success exactly the cards of the user's list leave the by-number index; on a cascade error exactly the numbers before some position k have left it and the error is the one deleting the k-th number reports (the cascade stops there) |
| `UserFacts.IdsStartAtOneAndIncrease` | database.js:377-379 | the first user of a fresh store has id 1 and the next one id 2 |
| `UserFacts.LoginAfterCreate` | database.js:382-396 | right after registering, login succeeds with the given password and fails with any other |
| `UserFacts.PhoneLastWriteWins` | database.js:372-373 | a second user with the same phone takes over the phone; the first is still found by id but cannot log in with a different password |
| `UserFacts.DeleteShadowedUserUnindexesPhone` | database.js:425-430 | deleting the earlier of two users sharing a phone removes the phone entry of the later one, who can then no longer log in |
| `UserFacts.UpdatePhoneDoesNotReindex` | database.js:453-457 | after a phone update the old phone still finds the user (showing the new phone) and the new phone finds nobody |
| `UserFacts.CreateKeepsListsConsistent` | database.js:98-104 | the empty store's lists are consistent, and issuing a card keeps every user's list consistent (live cards of that user, each under its own number, no repeats) |
| `UserFacts.CardDeleteKeepsListsConsistent` | database.js:158-164 | deleting a card keeps every user's list consistent |
| `UserFacts.MoneyOperationsKeepListsConsistent` | database.js:205-291 | withdrawals, top-ups and transfers keep every user's list consistent |
| `UserFacts.BalanceChangesKeepListsConsistent` | database.js:67-69 | a change confined to balances and the log keeps every user's list consistent |
| `UserFacts.UpdateOwnerBreaksListConsistency` | database.js:195-199 | an update moving a listed card to another owner leaves the former owner's list inconsistent |
| `UserFacts.DeleteOwnedCards` | database.js:433-439 | the cascade over distinct live cards of one user succeeds and leaves the user's list empty |
| `UserFacts.DeleteUserRemovesOwnedCards` | database.js:416-443 | deleting a user with a consistent list succeeds, the user is gone, none of the listed cards is found by number and the user's list is empty |
| `UserFacts.DeleteCardsFrame` | database.js:435-439 | whatever its outcome, the cascade leaves every surviving number pointing at the same card record, keeps the by-user index's keys, and leaves intact the list of every user none of whose live cards is named in it |
| `UserFacts.DeleteUserFrame` | database.js:416-443 | deleting a user leaves every surviving number pointing at the same card record and keeps the by-user index's keys; a user none of whose cards is in the deleted user's list keeps that list, and when the deleted user's list is consistent every other user does |

## Left out

- HTTP routing, middleware, server start-up and the demo seed data (server.js) are not part of this model.
- The random card-number retry loop (database.js:108-119): the fresh number is a parameter whose precondition is the loop's exit condition plus the generator's band.
- The wall clock (database.js:127-129): each operation takes one `now`. The source reads the clock at every expiry check, so within one transfer its checks could see different times; the model gives them one time, which makes the transfer's target gate (applied to the source card) always pass.
- IEEE-754 rounding of amounts and rates: amounts are exact reals.
- The constructor guard flag (`#initializing`): records are only produced by the `Create` functions.
- Aliasing of the live arrays returned by `Operation.get` and `Card.getByUserId`: sequences are values.
- Unknown currency pairs and the NaN they produce: the currency type has exactly the three currencies.
- The exact error messages: each message is one constructor of `Results.Error`. The default operation descriptions and the operation types are kept as constant strings.
- The rendering of the transfer descriptions ("Переказ …"), which prints a floating-point amount: the description is kept structured (amount, currency, masked counterparty).
- Inherited key names: the registries are plain objects, so the source's `in` tests on card numbers, user ids and phones (database.js:152, 180, 189, 206, 229, 253, 263, 421, 447, 464, 473) also succeed for names inherited from `Object.prototype` (`toString`, `constructor`, …), and indexing with them yields the inherited member. The model's indexes are true maps holding only what was stored: such a number or phone is not found, a write to `__proto__` is an ordinary entry, and no `Object.prototype` member is represented.
- Cards.Transfer: for a target number naming an inherited member such as `toString`, the source passes the existence check at database.js:263, debits and logs the source card at line 277, and returns the top-up error from line 285 (the inherited function has no `active` field); the model's contract instead states CardNotFound with no change, by the inherited-key line above.
- JavaScript dynamic typing: update payloads are typed records carrying only the record's own fields, and values of another type cannot be sent. The source's `key in instance` test (database.js:196, 454) skips keys that are neither fields nor inherited properties; keys inherited through the prototype chain (`constructor`, `toString`, `__proto__`) pass it and are assigned onto the object, but they touch no field this model has, so they are not represented. Number/string key coercion is not modelled (user ids are integers, card numbers strings).
- The exception `Card.delete` raises when the card's owner has no by-user list (possible only after an update changed `userId`) is the error `OwnerListMissing`, returned with no change; inside `User.delete` it ends the cascade like any other error.
- The unused `Card.#currentNumber` counter and `MAX_CARD_NUMBER_SIZE` constant have no counterpart.
- Cards.GetByUserId: the contract gives the list length; the contents are stated by `CardFacts.CreateAppendsToOwner` and `CardFacts.DeleteEmptiesOwnerList`.

=== FILE: card_facts.dfy ===
/** Properties of the card registry that relate several operations, and the source's card defects. */
module CardFacts {
  import opened Currencies
  import opened Operations
  import opened Results
  import opened State
  import opened Cards

  /** A new card is appended at the end of its owner's list; every other user's list is unchanged. */
  lemma CreateAppendsToOwner(s: Store, userId: int, name: Option<string>, currency: Currency, now: int,
                             number: string)
    requires Valid(s)
    requires number !in s.byNumber && IsCardNumber(number)
    ensures var r := Create(s, userId, name, currency, now, number);
            GetByUserId(r.store, userId) == GetByUserId(s, userId) + [r.card]
    ensures var r := Create(s, userId, name, currency, now, number);
            forall u :: u != userId ==> GetByUserId(r.store, u) == GetByUserId(s, u)
  {
    var r := Create(s, userId, name, currency, now, number);
    var before, after := GetByUserId(s, userId), GetByUserId(r.store, userId);
    assert |after| == |before| + 1;
    forall i | 0 <= i < |after|
      ensures after[i] == (before + [r.card])[i]
    {
    }
    forall u | u != userId
      ensures GetByUserId(r.store, u) == GetByUserId(s, u)
    {
      if u in s.byUser {
        var x, y := GetByUserId(r.store, u), GetByUserId(s, u);
        assert |x| == |y|;
        forall i | 0 <= i < |x| ensures x[i] == y[i] {
        }
      }
    }
  }

  /**
   * Withdrawing in the card's own currency: it succeeds exactly when the card
   * is active, unexpired and the balance covers the amount, and then the
   * balance drops by the amount and stays non-negative.
   */
  lemma WithdrawSameCurrency(s: Store, n: string, amount: real,
                             description: Option<Description>, kind: Option<string>, date: Option<int>, now: int)
    requires Valid(s) && n in s.byNumber
    ensures var c := CardAt(s, n);
            var r := Withdraw(s, n, amount, c.currency, description, kind, date, now);
            && (r.outcome.Ok? <==> c.active && now < c.expiresEnd && c.balance >= amount)
            && (r.outcome.Ok? ==> CardAt(r.store, n).balance == c.balance - amount >= 0.0)
  {
  }

  /**
   * A withdrawal above the balance in the card's own currency is refused with
   * NotEnoughFunds and changes neither balance nor history.
   */
  lemma WithdrawOverdraftRefused(s: Store, n: string, amount: real,
                                 description: Option<Description>, kind: Option<string>, date: Option<int>, now: int)
    requires Valid(s) && n in s.byNumber && amount > CardAt(s, n).balance
    ensures var r := Withdraw(s, n, amount, CardAt(s, n).currency, description, kind, date, now);
            r == Step(s, Err(NotEnoughFunds))
  {
  }

  /**
   * The withdrawal gate is monotonic in the amount: when a withdrawal in any
   * currency passes, a smaller one in the same currency, at the same time and
   * from the same state, passes too.
   */
  lemma WithdrawSmallerAmountPasses(s: Store, n: string, a: real, b: real, currency: Currency,
                                    description: Option<Description>, kind: Option<string>, date: Option<int>,
                                    now: int)
    requires Valid(s) && n in s.byNumber && a <= b
    requires Withdraw(s, n, b, currency, description, kind, date, now).outcome.Ok?
    ensures Withdraw(s, n, a, currency, description, kind, date, now).outcome.Ok?
  {
    var c := CardAt(s, n);
    ConvertMonotonic(currency, c.currency, a, b);
    ConvertMonotonic(c.currency, currency, Convert(currency, c.currency, a), Convert(currency, c.currency, b));
  }

  /**
   * The cross-currency defect: the balance check converts the already
   * converted amount back, so a UAH card holding 100 passes the check for a
   * 100 USD withdrawal (3670 UAH) and ends at -3570.
   */
  lemma WithdrawCrossCurrencyOverdraws(s: Store, n: string, now: int)
    requires Valid(s) && n in s.byNumber
    requires CardAt(s, n).currency == UAH && CardAt(s, n).balance == 100.0
    requires CardAt(s, n).active && now < CardAt(s, n).expiresEnd
    ensures var r := Withdraw(s, n, 100.0, USD, None, None, None, now);
            r.outcome.Ok? && CardAt(r.store, n).balance == -3570.0
  {
    var c := CardAt(s, n);
    assert Convert(USD, UAH, 100.0) == 3670.0;
    assert Convert(UAH, USD, 3670.0) == 99.09;
    assert IsWithdrawPossible(c, 3670.0, USD, now);
  }

  /**
   * A top-up in the card's own currency followed by a withdrawal of the same
   * amount at the same time restores the balance exactly, provided the balance
   * was not negative, and appends the two operations +amount then -amount.
   */
  lemma TopUpThenWithdrawRestores(s: Store, n: string, amount: real, now: int)
    requires Valid(s) && n in s.byNumber && CardAt(s, n).balance >= 0.0
    requires TopUp(s, n, amount, CardAt(s, n).currency, None, None, None, now).outcome.Ok?
    ensures var c := CardAt(s, n);
            var t := TopUp(s, n, amount, c.currency, None, None, None, now);
            var w := Withdraw(t.store, n, amount, c.currency, None, None, None, now);
            && w.outcome.Ok?
            && CardAt(w.store, n) == c
            && History(w.store.log, n) == History(s.log, n) +
                 [Operation(now, Text(DEFAULT_TOP_UP_DESCRIPTION), TOP_UP_KIND, amount),
                  Operation(now, Text(DEFAULT_WITHDRAW_DESCRIPTION), WITHDRAW_KIND, -amount)]
  {
    var c := CardAt(s, n);
    var t := TopUp(s, n, amount, c.currency, None, None, None, now);
    var c1 := CardAt(t.store, n);
    assert c1 == c.(balance := c.balance + amount);
    var w := Withdraw(t.store, n, amount, c.currency, None, None, None, now);
    assert IsWithdrawPossible(c1, amount, c.currency, now);
    assert CardAt(w.store, n) == c1.(balance := c1.balance - amount);
    assert History(w.store.log, n) == (History(s.log, n) +
      [Operation(now, Text(DEFAULT_TOP_UP_DESCRIPTION), TOP_UP_KIND, amount)]) +
      [Operation(now, Text(DEFAULT_WITHDRAW_DESCRIPTION), WITHDRAW_KIND, -amount)];
  }

  /**
   * A transfer between two different cards whose gates pass succeeds: the source loses
   * `amount`, the target gains it converted into the target's currency, one
   * operation is appended to each card, and no other card or history changes.
   */
  lemma TransferMovesFunds(s: Store, src: string, tgt: string, amount: real, now: int)
    requires Valid(s) && src != tgt && src in s.byNumber && tgt in s.byNumber
    requires IsWithdrawPossible(CardAt(s, src), amount, CardAt(s, src).currency, now)
    requires IsTopUpPossible(CardAt(s, tgt), now)
    ensures Transfer(s, src, tgt, amount, now).outcome.Ok?
    ensures var r := Transfer(s, src, tgt, amount, now).store;
            var a, b := CardAt(s, src), CardAt(s, tgt);
            var credit := Convert(a.currency, b.currency, amount);
            && CardAt(r, src) == a.(balance := a.balance - amount)
            && CardAt(r, tgt) == b.(balance := b.balance + credit)
            && (forall m :: m in s.byNumber && m != src && m != tgt ==> CardAt(r, m) == CardAt(s, m))
            && History(r.log, src) ==
                 History(s.log, src) + [Operation(now, TransferTo(amount, a.currency, Mask(tgt)), TRANSFER_TO_KIND, -amount)]
            && History(r.log, tgt) ==
                 History(s.log, tgt) + [Operation(now, TransferFrom(amount, a.currency, Mask(src)), TRANSFER_FROM_KIND, credit)]
            && (forall m :: m != src && m != tgt ==> History(r.log, m) == History(s.log, m))
  {
    var a := CardAt(s, src);
    var w := Withdraw(s, src, amount, a.currency,
                      Some(TransferTo(amount, a.currency, Mask(tgt))), Some(TRANSFER_TO_KIND), None, now);
    assert w.outcome.Ok?;
    var t := TopUp(w.store, tgt, amount, a.currency,
                   Some(TransferFrom(amount, a.currency, Mask(src))), Some(TRANSFER_FROM_KIND), None, now);
    assert Transfer(s, src, tgt, amount, now) == Step(t.store, Ok);
  }

  /** A transfer from a card to itself that passes the source gate leaves the card as it was and logs both legs on it. */
  lemma TransferToSelf(s: Store, n: string, amount: real, now: int)
    requires Valid(s) && n in s.byNumber
    requires IsWithdrawPossible(CardAt(s, n), amount, CardAt(s, n).currency, now)
    ensures Transfer(s, n, n, amount, now).outcome.Ok?
    ensures var r := Transfer(s, n, n, amount, now).store;
            var c := CardAt(s, n);
            && CardAt(r, n) == c
            && History(r.log, n) == History(s.log, n) +
                 [Operation(now, TransferTo(amount, c.currency, Mask(n)), TRANSFER_TO_KIND, -amount),
                  Operation(now, TransferFrom(amount, c.currency, Mask(n)), TRANSFER_FROM_KIND, amount)]
  {
    var c := CardAt(s, n);
    var w := Withdraw(s, n, amount, c.currency,
                      Some(TransferTo(amount, c.currency, Mask(n))), Some(TRANSFER_TO_KIND), None, now);
    var t := TopUp(w.store, n, amount, c.currency,
                   Some(TransferFrom(amount, c.currency, Mask(n))), Some(TRANSFER_FROM_KIND), None, now);
    assert Transfer(s, n, n, amount, now) == Step(t.store, Ok);
    assert History(t.store.log, n) == (History(s.log, n) +
      [Operation(now, TransferTo(amount, c.currency, Mask(n)), TRANSFER_TO_KIND, -amount)]) +
      [Operation(now, TransferFrom(amount, c.currency, Mask(n)), TRANSFER_FROM_KIND, amount)];
  }

  /**
   * The transfer defect: the target's gate is checked on the source card, so
   * an inactive or expired target is only noticed by the second leg. The
   * source is then already debited and logged, the target is unchanged, and
   * the top-up's error is returned.
   */
  lemma TransferToUnavailableTargetDebitsSource(s: Store, src: string, tgt: string, amount: real, now: int)
    requires Valid(s) && src != tgt && src in s.byNumber && tgt in s.byNumber
    requires IsWithdrawPossible(CardAt(s, src), amount, CardAt(s, src).currency, now)
    requires !IsTopUpPossible(CardAt(s, tgt), now)
    ensures var r := Transfer(s, src, tgt, amount, now);
            var a := CardAt(s, src);
            && r.outcome == Err(TopUpNotPossible)
            && CardAt(r.store, src) == a.(balance := a.balance - amount)
            && History(r.store.log, src) ==
                 History(s.log, src) + [Operation(now, TransferTo(amount, a.currency, Mask(tgt)), TRANSFER_TO_KIND, -amount)]
            && CardAt(r.store, tgt) == CardAt(s, tgt)
            && History(r.store.log, tgt) == History(s.log, tgt)
  {
    var a := CardAt(s, src);
    var w := Withdraw(s, src, amount, a.currency,
                      Some(TransferTo(amount, a.currency, Mask(tgt))), Some(TRANSFER_TO_KIND), None, now);
    assert w.outcome.Ok?;
    var t := TopUp(w.store, tgt, amount, a.currency,
                   Some(TransferFrom(amount, a.currency, Mask(src))), Some(TRANSFER_FROM_KIND), None, now);
    assert CardAt(w.store, tgt) == CardAt(s, tgt);
    assert t == Step(w.store, Err(TopUpNotPossible));
    assert Transfer(s, src, tgt, amount, now) == t;
  }

  /**
   * The delete defect: deleting one card of a user empties the user's whole
   * list, so another live card of the same user is still found by number but
   * no longer listed for its owner.
   */
  lemma DeleteEmptiesOwnerList(s: Store, a: string, b: string)
    requires Valid(s) && a in s.byNumber && b in s.byNumber && a != b
    requires CardAt(s, a).userId in s.byUser
    requires CardAt(s, b).userId == CardAt(s, a).userId
    ensures var r := Delete(s, a);
            && r.outcome.Ok?
            && GetByCardNumber(r.store, a).None?
            && GetByCardNumber(r.store, b) == Some(CardAt(s, b))
            && GetByUserId(r.store, CardAt(s, b).userId) == []
  {
    var r := Delete(s, a);
    assert CardAt(r.store, b) == CardAt(s, b);
  }

  /**
   * The update defect: a payload carrying a new `userId` re-labels the card
   * but leaves it in its former owner's list, and a payload carrying a
   * `balance` sets it outright, negative or not.
   */
  lemma UpdateDoesNotReindex(s: Store, p: CardPatch, i: nat)
    requires Valid(s) && p.number in s.byNumber
    requires p.userId.Some? && p.balance.Some?
    requires var owner := CardAt(s, p.number).userId;
             owner in s.byUser && i < |s.byUser[owner]| && s.byUser[owner][i] == s.byNumber[p.number]
    ensures var owner := CardAt(s, p.number).userId;
            var r := Update(s, p);
            && GetByUserId(r.store, owner)[i] == CardAt(r.store, p.number)
            && CardAt(r.store, p.number).userId == p.userId.value
            && CardAt(r.store, p.number).balance == p.balance.value
  {
  }

  /** The mask depends on the first two and the last two digits only. */
  lemma MaskHidesMiddle(n: string, k: string)
    requires |n| == 16 && |k| == 16
    requires n[0] == k[0] && n[1] == k[1] && n[14] == k[14] && n[15] == k[15]
    ensures Mask(n) == Mask(k)
  {
  }
}

=== FILE: cards.dfy ===
/**
 * The card registry: issuing, looking up, updating and deleting cards, and the
 * three money operations (withdraw, top up, transfer), each gated by the
 * card's active flag and a time-based expiry check.
 */
module Cards {
  import opened Currencies
  import opened Operations
  import opened Results
  import opened State

  const DEFAULT_WITHDRAW_DESCRIPTION: string := "Зняття готівки або валюти"
  const DEFAULT_TOP_UP_DESCRIPTION: string := "Поповнення картки"
  const WITHDRAW_KIND: string := "withdraw"
  const TOP_UP_KIND: string := "topup"
  const TRANSFER_TO_KIND: string := "transfer_to"
  const TRANSFER_FROM_KIND: string := "transfer_from"

  /** Card.create's result: the new store and the card it issued. */
  datatype Issued = Issued(store: Store, card: Card)

  /**
   * An update payload. `number` selects the card; every other field that is
   * present overwrites the stored one (keys the card does not have are not
   * representable, matching the source's silent skip of them).
   */
  datatype CardPatch = CardPatch(
    number: string,
    name: Option<string>,
    validFrom: Option<int>,
    expiresEnd: Option<int>,
    balance: Option<real>,
    active: Option<bool>,
    currency: Option<Currency>,
    userId: Option<int>)

  /**
   * The card record as the source's `update` leaves it: present fields
   * overwrite, absent ones are kept, and `number`, being both the lookup key
   * and the value written back, stays.
   */
  function Merge(c: Card, p: CardPatch): (r: Card)
    ensures r.number == c.number
    ensures p == CardPatch(p.number, None, None, None, None, None, None, None) ==> r == c
    ensures && p.name.Some? && p.validFrom.Some? && p.expiresEnd.Some? && p.balance.Some?
            && p.active.Some? && p.currency.Some? && p.userId.Some? ==>
              r == Card(c.number, p.name.value, p.validFrom.value, p.expiresEnd.value, p.balance.value,
                        p.active.value, p.currency.value, p.userId.value)
  {
    Card(
      c.number,
      ValueOr(p.name, c.name),
      ValueOr(p.validFrom, c.validFrom),
      ValueOr(p.expiresEnd, c.expiresEnd),
      ValueOr(p.balance, c.balance),
      ValueOr(p.active, c.active),
      ValueOr(p.currency, c.currency),
      ValueOr(p.userId, c.userId))
  }

  /**
   * Expiry is recomputed at every operation: a card is expired from
   * `expiresEnd` on, so a card whose term was set at issue expires exactly
   * seven years of seconds after `validFrom`.
   */
  function IsExpired(c: Card, now: int): (r: bool)
    ensures now >= c.expiresEnd ==> r
    ensures r ==> now >= c.expiresEnd
    ensures c.expiresEnd == c.validFrom + CARD_ISSUE_TERM_YEARS * SECONDS_IN_YEAR ==>
              (r <==> now - c.validFrom >= CARD_ISSUE_TERM_YEARS * SECONDS_IN_YEAR)
  {
    now >= c.expiresEnd
  }

  /** The top-up gate: active and not expired; neither the amount nor the balance is consulted. */
  function IsTopUpPossible(c: Card, now: int): (r: bool)
    ensures !c.active ==> !r
    ensures IsExpired(c, now) ==> !r
    ensures c.active && now < c.expiresEnd ==> r
  {
    c.active && !IsExpired(c, now)
  }

  /**
   * The withdrawal gate: the top-up gate plus a balance that covers `amount`
   * converted from the card's currency into `currency`. In the card's own
   * currency that is a plain comparison of balance and amount.
   */
  function IsWithdrawPossible(c: Card, amount: real, currency: Currency, now: int): (r: bool)
    ensures r ==> IsTopUpPossible(c, now)
    ensures currency == c.currency ==> (r <==> IsTopUpPossible(c, now) && c.balance >= amount)
    ensures r <==> IsTopUpPossible(c, now) && c.balance >= amount * Rate(c.currency, currency)
  {
    && c.active
    && !IsExpired(c, now)
    && c.balance >= Convert(c.currency, currency, amount)
  }

  /** Every user-registry field is the same in both stores. */
  ghost predicate SameUsers(s: Store, s': Store) {
    s'.users == s.users && s'.byId == s.byId && s'.byPhone == s.byPhone && s'.lastId == s.lastId
  }

  /**
   * `s'` differs from `s` at most in the balances of live cards and in the
   * operation log: no index, no other card field and no user changes.
   */
  ghost predicate BalancesOnly(s: Store, s': Store)
    requires Valid(s) && Valid(s')
  {
    && s'.byNumber == s.byNumber && s'.byUser == s.byUser && SameUsers(s, s')
    && (forall m :: m in s.byNumber ==> CardAt(s', m) == CardAt(s, m).(balance := CardAt(s', m).balance))
  }

  /**
   * `s'` is `s` after posting `op` to live card `n`: its balance moved by
   * `delta`, `op` appended to its history, and nothing else changed.
   */
  ghost predicate Posted(s: Store, s': Store, n: string, delta: real, op: Operation)
    requires Valid(s) && Valid(s')
  {
    && n in s.byNumber
    && s'.byNumber == s.byNumber && s'.byUser == s.byUser && SameUsers(s, s')
    && CardAt(s', n) == CardAt(s, n).(balance := CardAt(s, n).balance + delta)
    && (forall m :: m in s.byNumber && m != n ==> CardAt(s', m) == CardAt(s, m))
    && History(s'.log, n) == History(s.log, n) + [op]
    && (forall m :: m != n ==> History(s'.log, m) == History(s.log, m))
  }

  /**
   * Posts one operation to live card `n`: moves its balance by `delta` and
   * appends `op` to its history; the common tail of withdraw and top-up.
   */
  function Post(s: Store, n: string, delta: real, op: Operation): (s': Store)
    requires Valid(s) && n in s.byNumber
    ensures Valid(s')
    ensures Posted(s, s', n, delta, op)
    ensures BalancesOnly(s, s')
  {
    var c := CardAt(s, n);
    var s1 := WithCard(s, n, c.(balance := c.balance + delta));
    var (log, _) := Add(s1.log, n, op.timestamp, op.description, op.kind, op.amount);
    s1.(log := log)
  }

  /** Card.getByCardNumber: the live card with that number, or nothing. */
  function GetByCardNumber(s: Store, n: string): (r: Option<Card>)
    requires Valid(s)
    ensures r.Some? <==> n in s.byNumber
    ensures r.Some? ==> r.value.number == n && IsCardNumber(n)
  {
    if n in s.byNumber then Some(CardAt(s, n)) else None
  }

  /** Card.getByUserId: the cards in the user's by-user list, in insertion order. */
  function GetByUserId(s: Store, u: int): (r: seq<Card>)
    requires Valid(s)
    ensures u !in s.byUser ==> r == []
    ensures u in s.byUser ==> |r| == |s.byUser[u]|
  {
    if u !in s.byUser then []
    else
      var refs := s.byUser[u];
      seq(|refs|, i requires 0 <= i < |refs| => s.cards[refs[i]])
  }

  /**
   * Card.create with the fresh number and the clock supplied: a zero-balance
   * active card valid for seven years, registered under its number and
   * appended to its owner's list.
   */
  function Create(s: Store, userId: int, name: Option<string>, currency: Currency, now: int, number: string)
    : (r: Issued)
    requires Valid(s)
    requires number !in s.byNumber && IsCardNumber(number)
    ensures Valid(r.store)
    ensures r.card.number == number && r.card.userId == userId && r.card.currency == currency
    ensures r.card.balance == 0.0 && r.card.active
    ensures name.None? ==> r.card.name == ""
    ensures name.Some? ==> r.card.name == name.value
    ensures r.card.validFrom == now && r.card.expiresEnd - r.card.validFrom == CARD_ISSUE_TERM_YEARS * SECONDS_IN_YEAR
    ensures r.store.byNumber.Keys == s.byNumber.Keys + {number}
    ensures GetByCardNumber(r.store, number) == Some(r.card)
    ensures forall m :: m != number ==> GetByCardNumber(r.store, m) == GetByCardNumber(s, m)
    ensures r.store.log == s.log && SameUsers(s, r.store)
  {
    var card := Card(number, ValueOr(name, ""), now, now + CARD_ISSUE_TERM_YEARS * SECONDS_IN_YEAR,
                     0.0, true, currency, userId);
    var ref := |s.cards|;
    var owned := if userId in s.byUser then s.byUser[userId] else [];
    Issued(s.(cards := s.cards + [card],
              byNumber := s.byNumber[number := ref],
              byUser := s.byUser[userId := owned + [ref]]),
           card)
  }

  /**
   * Card.delete. The source rebuilds the owner's list with a filter whose
   * callback returns nothing, so the owner's whole list becomes empty. An
   * owner without a list makes the source throw before anything changes.
   */
  function Delete(s: Store, n: string): (r: Step)
    requires Valid(s)
    ensures Valid(r.store)
    ensures n !in s.byNumber ==> r == Step(s, Err(CardNotFound(n)))
    ensures n in s.byNumber && CardAt(s, n).userId !in s.byUser ==>
              r == Step(s, Err(OwnerListMissing(CardAt(s, n).userId)))
    ensures r.outcome.Ok? <==> n in s.byNumber && CardAt(s, n).userId in s.byUser
    ensures r.outcome.Ok? ==>
              && r.store.byNumber == s.byNumber - {n}
              && GetByUserId(r.store, CardAt(s, n).userId) == []
              && r.store.byUser.Keys == s.byUser.Keys
              && (forall u :: u in s.byUser && u != CardAt(s, n).userId ==> r.store.byUser[u] == s.byUser[u])
              && r.store.cards == s.cards
    ensures r.store.log == s.log && SameUsers(s, r.store)
  {
    if n !in s.byNumber then Step(s, Err(CardNotFound(n)))
    else
      var owner := CardAt(s, n).userId;
      if owner !in s.byUser then Step(s, Err(OwnerListMissing(owner)))
      else Step(s.(byUser := s.byUser[owner := []], byNumber := s.byNumber - {n}), Ok)
  }

  /** Card.update: merges the present fields into the stored card; no index is touched. */
  function Update(s: Store, p: CardPatch): (r: Step)
    requires Valid(s)
    ensures Valid(r.store)
    ensures r.outcome.Ok? <==> p.number in s.byNumber
    ensures r.outcome.Err? ==> r == Step(s, Err(CardNotFound(p.number)))
    ensures r.store.byNumber == s.byNumber && r.store.byUser == s.byUser
    ensures r.store.log == s.log && SameUsers(s, r.store)
    ensures r.outcome.Ok? ==>
              var c, o := CardAt(r.store, p.number), CardAt(s, p.number);
              && c.number == o.number
              && (p.name.Some? ==> c.name == p.name.value) && (p.name.None? ==> c.name == o.name)
              && (p.validFrom.Some? ==> c.validFrom == p.validFrom.value)
              && (p.validFrom.None? ==> c.validFrom == o.validFrom)
              && (p.expiresEnd.Some? ==> c.expiresEnd == p.expiresEnd.value)
              && (p.expiresEnd.None? ==> c.expiresEnd == o.expiresEnd)
              && (p.balance.Some? ==> c.balance == p.balance.value)
              && (p.balance.None? ==> c.balance == o.balance)
              && (p.active.Some? ==> c.active == p.active.value) && (p.active.None? ==> c.active == o.active)
              && (p.currency.Some? ==> c.currency == p.currency.value)
              && (p.currency.None? ==> c.currency == o.currency)
              && (p.userId.Some? ==> c.userId == p.userId.value) && (p.userId.None? ==> c.userId == o.userId)
    ensures forall m :: m in s.byNumber && m != p.number ==> CardAt(r.store, m) == CardAt(s, m)
  {
    if p.number !in s.byNumber then Step(s, Err(CardNotFound(p.number)))
    else Step(WithCard(s, p.number, Merge(CardAt(s, p.number), p)), Ok)
  }

  /**
   * Card.withdraw. `amount` is in `currency`; `total` is that amount in the
   * card's currency. The balance check converts `total` once more, from the
   * card's currency back into `currency`, before comparing it with the balance.
   */
  function Withdraw(s: Store, n: string, amount: real, currency: Currency,
                    description: Option<Description>, kind: Option<string>, date: Option<int>, now: int)
    : (r: Step)
    requires Valid(s)
    ensures Valid(r.store)
    ensures n !in s.byNumber ==> r == Step(s, Err(CardNotFound(n)))
    ensures n in s.byNumber ==>
              var c := CardAt(s, n);
              var total := Convert(currency, c.currency, amount);
              && (r.outcome.Ok? <==> IsWithdrawPossible(c, total, currency, now))
              && (r.outcome.Ok? ==>
                    Posted(s, r.store, n, -total,
                           Operation(ValueOr(date, now), ValueOr(description, Text(DEFAULT_WITHDRAW_DESCRIPTION)),
                                     ValueOr(kind, WITHDRAW_KIND), -total)))
    ensures r.outcome.Err? ==> r.store == s
    ensures r.outcome.Err? && n in s.byNumber ==> r.outcome.error == NotEnoughFunds
    ensures BalancesOnly(s, r.store)
  {
    if n !in s.byNumber then Step(s, Err(CardNotFound(n)))
    else
      var c := CardAt(s, n);
      var total := Convert(currency, c.currency, amount);
      if !IsWithdrawPossible(c, total, currency, now) then Step(s, Err(NotEnoughFunds))
      else
        Step(Post(s, n, -total, Operation(ValueOr(date, now), ValueOr(description, Text(DEFAULT_WITHDRAW_DESCRIPTION)),
                                           ValueOr(kind, WITHDRAW_KIND), -total)), Ok)
  }

  /** Card.topUp: like withdraw, but gated only by the active flag and expiry. */
  function TopUp(s: Store, n: string, amount: real, currency: Currency,
                 description: Option<Description>, kind: Option<string>, date: Option<int>, now: int)
    : (r: Step)
    requires Valid(s)
    ensures Valid(r.store)
    ensures n !in s.byNumber ==> r == Step(s, Err(CardNotFound(n)))
    ensures n in s.byNumber ==>
              var c := CardAt(s, n);
              var total := Convert(currency, c.currency, amount);
              && (r.outcome.Ok? <==> IsTopUpPossible(c, now))
              && (r.outcome.Ok? ==>
                    Posted(s, r.store, n, total,
                           Operation(ValueOr(date, now), ValueOr(description, Text(DEFAULT_TOP_UP_DESCRIPTION)),
                                     ValueOr(kind, TOP_UP_KIND), total)))
    ensures r.outcome.Err? ==> r.store == s
    ensures r.outcome.Err? && n in s.byNumber ==> r.outcome.error == TopUpNotPossible
    ensures BalancesOnly(s, r.store)
  {
    if n !in s.byNumber then Step(s, Err(CardNotFound(n)))
    else
      var c := CardAt(s, n);
      var total := Convert(currency, c.currency, amount);
      if !IsTopUpPossible(c, now) then Step(s, Err(TopUpNotPossible))
      else
        Step(Post(s, n, total, Operation(ValueOr(date, now), ValueOr(description, Text(DEFAULT_TOP_UP_DESCRIPTION)),
                                           ValueOr(kind, TOP_UP_KIND), total)), Ok)
  }

  /** A card number as shown in transfer descriptions: first two digits, "**", last two digits. */
  function Mask(n: string): (m: string)
    requires |n| == 16
    ensures |m| == 6 && m[2] == '*' && m[3] == '*'
    ensures m[0] == n[0] && m[1] == n[1] && m[4] == n[14] && m[5] == n[15]
  {
    [n[0], n[1], '*', '*', n[14], n[15]]
  }

  /**
   * Card.transfer. Checks run in the source's order: the source exists; the
   * source is active, unexpired and covers `amount`; the target exists. The
   * "target" gate is then applied to the card looked up by the SOURCE number,
   * as the source code does, so it always passes. The two legs follow as a
   * withdraw and a top-up; a failing second leg leaves the first in place.
   */
  function Transfer(s: Store, src: string, tgt: string, amount: real, now: int): (r: Step)
    requires Valid(s)
    ensures Valid(r.store)
    ensures src !in s.byNumber ==> r == Step(s, Err(CardNotFound(src)))
    ensures src in s.byNumber && !IsWithdrawPossible(CardAt(s, src), amount, CardAt(s, src).currency, now) ==>
              r == Step(s, Err(CannotOperate(src)))
    ensures (src in s.byNumber && IsWithdrawPossible(CardAt(s, src), amount, CardAt(s, src).currency, now)
             && tgt !in s.byNumber) ==> r == Step(s, Err(CardNotFound(tgt)))
    ensures r.outcome.Ok? <==>
              && src in s.byNumber && tgt in s.byNumber
              && IsWithdrawPossible(CardAt(s, src), amount, CardAt(s, src).currency, now)
              && IsTopUpPossible(CardAt(s, tgt), now)
    ensures BalancesOnly(s, r.store)
  {
    if src !in s.byNumber then Step(s, Err(CardNotFound(src)))
    else
      var source := CardAt(s, src);
      if !IsWithdrawPossible(source, amount, source.currency, now) then Step(s, Err(CannotOperate(src)))
      else if tgt !in s.byNumber then Step(s, Err(CardNotFound(tgt)))
      else
        var target := CardAt(s, src);
        var total := Convert(source.currency, target.currency, amount);
        if !IsTopUpPossible(target, now) then Step(s, Err(CannotOperate(src)))
        else
          var w := Withdraw(s, src, amount, source.currency,
                            Some(TransferTo(amount, source.currency, Mask(tgt))), Some(TRANSFER_TO_KIND), None, now);
          if w.outcome.Err? then w
          else
            var t := TopUp(w.store, tgt, total, source.currency,
                           Some(TransferFrom(total, source.currency, Mask(src))), Some(TRANSFER_FROM_KIND), None, now);
            if t.outcome.Err? then t else Step(t.store, Ok)
  }
}

=== FILE: currency.dfy ===
/**
 * The fixed currency table of the ledger and the conversion built on it.
 * Rates are exact decimals; the reverse of a pair is quoted independently and
 * is not the mathematical inverse.
 */
module Currencies {

  datatype Currency = USD | EUR | UAH

  /** One unit of `from` is worth `Rate(from, to)` units of `to`. */
  function Rate(from: Currency, to: Currency): (r: real)
    ensures r > 0.0
    ensures r == 1.0 <==> from == to
  {
    match (from, to)
    case (USD, USD) => 1.0
    case (USD, EUR) => 0.920
    case (USD, UAH) => 36.700
    case (EUR, USD) => 1.087
    case (EUR, EUR) => 1.0
    case (EUR, UAH) => 39.900
    case (UAH, USD) => 0.027
    case (UAH, EUR) => 0.025
    case (UAH, UAH) => 1.0
  }

  /** Converts `amount` units of `from` into units of `to`. */
  function Convert(from: Currency, to: Currency, amount: real): (r: real)
    ensures from == to ==> r == amount
    ensures amount == 0.0 ==> r == 0.0
    ensures amount >= 0.0 ==> r >= 0.0
    ensures amount < 0.0 ==> r < 0.0
  {
    amount * Rate(from, to)
  }

  /** Conversion keeps the order of amounts. */
  lemma ConvertMonotonic(from: Currency, to: Currency, a: real, b: real)
    requires a <= b
    ensures Convert(from, to, a) <= Convert(from, to, b)
  {
    assert Rate(from, to) > 0.0;
    assert (b - a) * Rate(from, to) >= 0.0;
  }

  /** No cross rate is the inverse of its reverse rate: a round trip never returns the amount it started from. */
  lemma RoundTripDrifts(a: Currency, b: Currency, amount: real)
    requires a != b && amount != 0.0
    ensures Convert(b, a, Convert(a, b, amount)) != amount
  {
    assert Rate(a, b) * Rate(b, a) != 1.0;
    assert Convert(b, a, Convert(a, b, amount)) == amount * (Rate(a, b) * Rate(b, a));
  }

  /** The concrete drift quoted for the table: 100 USD to EUR and back is 100.004 USD. */
  lemma UsdEurRoundTrip()
    ensures Convert(EUR, USD, Convert(USD, EUR, 100.0)) == 100.004
  {
  }
}

=== FILE: operation_log.dfy ===
/** The append-only history of money operations, keyed by card number. */
module Operations {
  import opened Currencies

  /**
   * What an operation's description says. Free text for top-ups and
   * withdrawals; the two transfer legs carry the amount, the source card's
   * currency and the masked counterparty number that the source renders into
   * its "Переказ ..." sentence.
   */
  datatype Description =
    | Text(text: string)
    | TransferTo(amount: real, currency: Currency, counterparty: string)
    | TransferFrom(amount: real, currency: Currency, counterparty: string)

  /** One operation: signed amount in the card's own currency (negative for outflow). */
  datatype Operation = Operation(timestamp: int, description: Description, kind: string, amount: real)

  type Log = map<string, seq<Operation>>

  /** Operation.get: the card's history, or the empty history for a card never written to. */
  function History(log: Log, number: string): (h: seq<Operation>)
    ensures number !in log ==> h == []
  {
    if number in log then log[number] else []
  }

  /**
   * Operation.add: creates the card's list on first use, appends the new
   * operation at its end and returns it. No other card's history changes.
   */
  function Add(log: Log, number: string, timestamp: int, description: Description, kind: string, amount: real)
    : (r: (Log, Operation))
    ensures r.1 == Operation(timestamp, description, kind, amount)
    ensures History(r.0, number) == History(log, number) + [r.1]
    ensures forall m :: m != number ==> History(r.0, m) == History(log, m)
    ensures r.0.Keys == log.Keys + {number}
  {
    var op := Operation(timestamp, description, kind, amount);
    (log[number := History(log, number) + [op]], op)
  }

  /** Adding twice to one card keeps the two operations in insertion order. */
  lemma AddKeepsOrder(log: Log, number: string, a: Operation, b: Operation)
    ensures var l1 := Add(log, number, a.timestamp, a.description, a.kind, a.amount).0;
            var l2 := Add(l1, number, b.timestamp, b.description, b.kind, b.amount).0;
            History(l2, number) == History(log, number) + [a, b]
  {
    var l1 := Add(log, number, a.timestamp, a.description, a.kind, a.amount).0;
    var l2 := Add(l1, number, b.timestamp, b.description, b.kind, b.amount).0;
    assert History(l2, number) == (History(log, number) + [a]) + [b];
  }
}

=== FILE: results.dfy ===
/** Optional values, the ledger's error conditions and the outcome of an operation. */
module Results {

  /** A value the caller may leave out (`null` or `undefined` in the source). */
  datatype Option<T> = None | Some(value: T)

  /** The value supplied, or `fallback` when it was left out. */
  function ValueOr<T>(o: Option<T>, fallback: T): T {
    if o.Some? then o.value else fallback
  }

  /**
   * The error conditions the ledger reports. Each corresponds to one error
   * message of the source; `OwnerListMissing` stands for the exception the
   * source raises when a card's owner has no by-user list.
   */
  datatype Error =
    | CardNotFound(number: string)    // "Card with number:... does not exist"
    | NotEnoughFunds                  // "Not enough funds on card balance"
    | TopUpNotPossible                // "Top up not possible"
    | CannotOperate(number: string)   // "Cant perform operation for card :..."
    | OwnerListMissing(userId: int)   // a thrown TypeError from Card.delete
    | UserNotFound(id: int)           // "User with id:... does not exist"
    | BadCredentials                  // "Login or password is incorrect"

  /** The source's error string: `Ok` for `""`, `Err` for any message. */
  datatype Outcome = Ok | Err(error: Error)
}

=== FILE: store.dfy ===
/**
 * The records of the ledger and the single store that holds every index.
 *
 * The source keeps its registries in static maps whose values are shared
 * object references: a card object is reachable both from the by-number
 * index and from its owner's by-user list, and a user object from both the
 * by-id and the by-phone index. Here each record lives once in a heap and
 * the indexes hold its identity: a card's position in `cards` (positions are
 * never reused), a user's id (ids are never reused either).
 */
module State {
  import opened Currencies
  import opened Operations
  import opened Results

  const CARD_ISSUE_TERM_YEARS: int := 7
  const SECONDS_IN_YEAR: int := 31536000
  /** Card numbers are drawn from 7770000000000000 ..= 7776999999999999. */
  const CARD_NUMBER_LENGTH: int := 16

  datatype Card = Card(
    number: string,
    name: string,
    validFrom: int,
    expiresEnd: int,
    balance: real,
    active: bool,
    currency: Currency,
    userId: int)

  datatype User = User(
    id: int,
    firstName: string,
    lastName: string,
    birthday: string,
    phone: string,
    password: string)

  /** A reference to a card record: its position in the card heap. */
  type CardRef = nat

  datatype Store = Store(
    log: Log,                         // Operation.#operationsByCardNumber
    cards: seq<Card>,                 // every card record ever created
    byNumber: map<string, CardRef>,   // Card.#allCardsByNumber
    byUser: map<int, seq<CardRef>>,   // Card.#allCardsByUserId
    users: map<int, User>,            // every user record ever created, by id
    byId: set<int>,                   // the keys of User.#usersById
    byPhone: map<string, int>,        // User.#usersByPhone, holding user ids
    lastId: nat)                      // User.#currentId

  /** The result of a state-changing operation: the new store and the error string. */
  datatype Step = Step(store: Store, outcome: Outcome)

  predicate IsDigit(c: char) {
    '0' <= c <= '9'
  }

  /**
   * A number the card-number generator can produce: 16 decimal digits inside
   * the band 7770000000000000 ..= 7776999999999999, that is, prefix "777"
   * followed by a digit from 0 to 6.
   */
  predicate IsCardNumber(n: string) {
    && |n| == CARD_NUMBER_LENGTH
    && AllDigits(n)
    && n[..3] == "777"
    && '0' <= n[3] <= '6'
  }

  predicate AllDigits(n: string) {
    forall i :: 0 <= i < |n| ==> IsDigit(n[i])
  }

  /** The number a string of decimal digits spells, most significant digit first. */
  function DecimalValue(n: string): nat
    requires AllDigits(n)
  {
    if |n| == 0 then 0 else DecimalValue(n[..|n| - 1]) * 10 + (n[|n| - 1] as int - '0' as int)
  }

  function Pow10(k: nat): nat {
    if k == 0 then 1 else 10 * Pow10(k - 1)
  }

  /** Digits appended after a prefix shift the prefix's value left by their count. */
  lemma {:induction false} DecimalValueAppend(a: string, b: string)
    requires AllDigits(a) && AllDigits(b)
    ensures AllDigits(a + b)
    ensures DecimalValue(a + b) == DecimalValue(a) * Pow10(|b|) + DecimalValue(b)
    ensures DecimalValue(b) < Pow10(|b|)
    decreases |b|
  {
    if |b| > 0 {
      var b', d := b[..|b| - 1], b[|b| - 1] as int - '0' as int;
      assert (a + b)[..|a + b| - 1] == a + b';
      DecimalValueAppend(a, b');
      assert DecimalValue(a + b) == DecimalValue(a + b') * 10 + d;
      assert DecimalValue(b) == DecimalValue(b') * 10 + d;
      ShiftDigit(DecimalValue(a), DecimalValue(b'), Pow10(|b'|), d);
    } else {
      assert a + b == a;
    }
  }

  lemma ShiftDigit(high: int, low: int, p: int, d: int)
    requires 0 <= low < p && 0 <= d <= 9
    ensures (high * p + low) * 10 + d == high * (10 * p) + (low * 10 + d)
    ensures low * 10 + d < 10 * p
  {
  }

  /**
   * The generator draws from 7770000000000000 ..= 7776999999999999: among
   * 16-digit strings, exactly the ones `IsCardNumber` accepts spell a number
   * in that band.
   */
  lemma {:induction false} CardNumberBand(n: string)
    requires |n| == CARD_NUMBER_LENGTH && AllDigits(n)
    ensures IsCardNumber(n) <==> 7770000000000000 <= DecimalValue(n) <= 7776999999999999
  {
    var head, tail := n[..4], n[4..];
    assert n == head + tail;
    DecimalValueAppend(head, tail);
    assert Pow10(|tail|) == 1000000000000 by {
      assert |tail| == 12;
      assert Pow10(2) == 100 && Pow10(4) == 10000 && Pow10(6) == 1000000;
      assert Pow10(8) == 100000000 && Pow10(10) == 10000000000;
    }
    var d0, d1, d2, d3 := n[0] as int - '0' as int, n[1] as int - '0' as int,
                          n[2] as int - '0' as int, n[3] as int - '0' as int;
    assert DecimalValue(head) == d0 * 1000 + d1 * 100 + d2 * 10 + d3 by {
      assert n[..1][..0] == [] && n[..2][..1] == n[..1] && n[..3][..2] == n[..2] && head[..3] == n[..3];
      assert DecimalValue(n[..1]) == d0;
      assert DecimalValue(n[..2]) == d0 * 10 + d1;
      assert DecimalValue(n[..3]) == d0 * 100 + d1 * 10 + d2;
    }
    assert n[..3] == "777" <==> n[0] == '7' && n[1] == '7' && n[2] == '7';
    BandDigits(d0, d1, d2, d3, DecimalValue(tail));
  }

  /** A four-digit prefix lies in 7770 ..= 7776 exactly when it reads "777" and then 0 to 6. */
  lemma BandDigits(d0: int, d1: int, d2: int, d3: int, rest: int)
    requires 0 <= d0 <= 9 && 0 <= d1 <= 9 && 0 <= d2 <= 9 && 0 <= d3 <= 9
    requires 0 <= rest < 1000000000000
    ensures (d0 == 7 && d1 == 7 && d2 == 7 && d3 <= 6)
            <==> 7770000000000000 <= (d0 * 1000 + d1 * 100 + d2 * 10 + d3) * 1000000000000 + rest
                                  <= 7776999999999999
  {
  }

  /** The representation invariant every operation keeps. */
  ghost predicate Valid(s: Store) {
    && (forall n :: n in s.byNumber ==>
          && s.byNumber[n] < |s.cards|
          && s.cards[s.byNumber[n]].number == n
          && IsCardNumber(n))
    && (forall u, i :: u in s.byUser && 0 <= i < |s.byUser[u]| ==> s.byUser[u][i] < |s.cards|)
    && (forall id :: id in s.users ==> s.users[id].id == id && 1 <= id <= s.lastId)
    && s.byId <= s.users.Keys
    && (forall p :: p in s.byPhone ==> s.byPhone[p] in s.users)
  }

  /** The store at process start: every index empty. */
  function Empty(): (s: Store)
    ensures Valid(s)
    ensures s.byNumber == map[] && s.byId == {} && s.lastId == 0
    ensures s.byUser == map[] && s.byPhone == map[] && s.log == map[] && s.users == map[] && s.cards == []
  {
    Store(map[], [], map[], map[], map[], {}, map[], 0)
  }

  /** The live card with number `n`. */
  function CardAt(s: Store, n: string): (c: Card)
    requires Valid(s) && n in s.byNumber
    ensures c.number == n
  {
    s.cards[s.byNumber[n]]
  }

  /** The store in which the live card numbered `n` has become `c`; no index changes. */
  function WithCard(s: Store, n: string, c: Card): (s': Store)
    requires Valid(s) && n in s.byNumber && c.number == n
    ensures s'.byNumber == s.byNumber && s'.byUser == s.byUser && s'.log == s.log
    ensures Valid(s')
    ensures CardAt(s', n) == c
    ensures forall m :: m in s.byNumber && m != n ==> CardAt(s', m) == CardAt(s, m)
    ensures s'.users == s.users && s'.byId == s.byId && s'.byPhone == s.byPhone && s'.lastId == s.lastId
  {
    s.(cards := s.cards[s.byNumber[n] := c])
  }
}

=== FILE: user_facts.dfy ===
/** Properties of the user registry that relate several operations, and the source's user defects. */
module UserFacts {
  import opened Currencies
  import opened Results
  import opened State
  import Cards
  import opened Users

  /** The first user of a fresh store gets id 1, and each later user the next id. */
  lemma IdsStartAtOneAndIncrease(f1: string, l1: string, b1: string, p1: string, w1: string,
                                 f2: string, l2: string, b2: string, p2: string, w2: string)
    ensures var r1 := Create(Empty(), f1, l1, b1, p1, w1);
            var r2 := Create(r1.store, f2, l2, b2, p2, w2);
            r1.user.id == 1 && r2.user.id == 2
  {
  }

  /** Logging in right after registering succeeds with the password given and fails with any other. */
  lemma LoginAfterCreate(s: Store, f: string, l: string, b: string, phone: string, password: string, other: string)
    requires Valid(s) && other != password
    ensures var r := Create(s, f, l, b, phone, password);
            Login(r.store, phone, password) == Ok && Login(r.store, phone, other) == Err(BadCredentials)
  {
  }

  /**
   * The phone index is last-write-wins: a second user registered with the
   * same phone takes over the phone, so the first user, still known by id,
   * can no longer log in with their own different password.
   */
  lemma PhoneLastWriteWins(s: Store, phone: string,
                           f1: string, l1: string, b1: string, w1: string,
                           f2: string, l2: string, b2: string, w2: string)
    requires Valid(s) && w1 != w2
    ensures var r1 := Create(s, f1, l1, b1, phone, w1);
            var r2 := Create(r1.store, f2, l2, b2, phone, w2);
            && GetByPhone(r2.store, phone) == Some(r2.user)
            && GetById(r2.store, r1.user.id) == Some(r1.user)
            && Login(r2.store, phone, w1) == Err(BadCredentials)
  {
    var r1 := Create(s, f1, l1, b1, phone, w1);
    var r2 := Create(r1.store, f2, l2, b2, phone, w2);
    assert r1.user.id != r2.user.id;
  }

  /**
   * Deleting the earlier of two users who share a phone removes the phone
   * entry that points at the later user, who then can no longer log in.
   */
  lemma DeleteShadowedUserUnindexesPhone(s: Store, phone: string,
                                         f1: string, l1: string, b1: string, w1: string,
                                         f2: string, l2: string, b2: string, w2: string)
    requires Valid(s)
    ensures var r1 := Create(s, f1, l1, b1, phone, w1);
            var r2 := Create(r1.store, f2, l2, b2, phone, w2);
            var d := Delete(r2.store, r1.user.id);
            && GetById(d.store, r2.user.id) == Some(r2.user)
            && GetByPhone(d.store, phone).None?
            && Login(d.store, phone, w2) == Err(BadCredentials)
  {
    var r1 := Create(s, f1, l1, b1, phone, w1);
    var r2 := Create(r1.store, f2, l2, b2, phone, w2);
    assert r1.user.id in r2.store.byId && r2.store.users[r1.user.id].phone == phone;
  }

  /**
   * The update defect: a payload with a new phone changes the record but not
   * the index, so the old phone still finds the user (now showing the new
   * phone) and the new phone does not.
   */
  lemma UpdatePhoneDoesNotReindex(s: Store, p: UserPatch)
    requires Valid(s) && p.id in s.byId && p.phone.Some?
    requires s.users[p.id].phone in s.byPhone && s.byPhone[s.users[p.id].phone] == p.id
    requires p.phone.value !in s.byPhone
    ensures var before := s.users[p.id];
            var r := Update(s, p);
            && r.outcome.Ok?
            && GetByPhone(r.store, before.phone) == Some(r.store.users[p.id])
            && r.store.users[p.id].phone == p.phone.value
            && GetByPhone(r.store, p.phone.value).None?
  {
  }

  /**
   * The user's by-user list is what the registry intends it to be: every
   * entry is a live card of that user, found under its own number, and no
   * entry repeats. Issuing and deleting cards and moving money keep this; a
   * card update carrying a new `userId` breaks it.
   */
  ghost predicate ListConsistent(s: Store, u: int)
    requires Valid(s)
  {
    u in s.byUser ==>
      && (forall i :: 0 <= i < |s.byUser[u]| ==>
            && s.cards[s.byUser[u][i]].number in s.byNumber
            && s.byNumber[s.cards[s.byUser[u][i]].number] == s.byUser[u][i]
            && s.cards[s.byUser[u][i]].userId == u)
      && (forall i, j :: 0 <= i < j < |s.byUser[u]| ==> s.byUser[u][i] != s.byUser[u][j])
  }

  /** The empty store's lists are consistent, and issuing a card keeps every user's list consistent. */
  lemma CreateKeepsListsConsistent(s: Store, userId: int, name: Option<string>, currency: Currency, now: int,
                                   number: string, u: int)
    requires Valid(s) && ListConsistent(s, u)
    requires number !in s.byNumber && IsCardNumber(number)
    ensures ListConsistent(Empty(), u)
    ensures ListConsistent(Cards.Create(s, userId, name, currency, now, number).store, u)
  {
    var r := Cards.Create(s, userId, name, currency, now, number).store;
    if u in r.byUser {
      var refs := r.byUser[u];
      forall i | 0 <= i < |refs|
        ensures r.cards[refs[i]].number in r.byNumber
        ensures r.byNumber[r.cards[refs[i]].number] == refs[i]
        ensures r.cards[refs[i]].userId == u
      {
        if refs[i] < |s.cards| {
          assert u in s.byUser && i < |s.byUser[u]| && s.byUser[u][i] == refs[i];
          assert r.cards[refs[i]] == s.cards[refs[i]];
        }
      }
      forall i, j | 0 <= i < j < |refs| ensures refs[i] != refs[j] {
        if u == userId && j == |refs| - 1 {
          assert refs[j] == |s.cards|;
          assert u in s.byUser ==> refs[i] == s.byUser[u][i];
        }
      }
    }
  }

  /** Deleting a card keeps every user's list consistent: the owner's list becomes empty, other lists keep live cards. */
  lemma CardDeleteKeepsListsConsistent(s: Store, n: string, u: int)
    requires Valid(s) && ListConsistent(s, u)
    ensures ListConsistent(Cards.Delete(s, n).store, u)
  {
    var r := Cards.Delete(s, n).store;
    if n in s.byNumber && CardAt(s, n).userId in s.byUser && u in r.byUser && u != CardAt(s, n).userId {
      var refs := r.byUser[u];
      assert refs == s.byUser[u];
      forall i | 0 <= i < |refs|
        ensures r.cards[refs[i]].number in r.byNumber
      {
        assert s.cards[refs[i]].userId == u;
      }
    }
  }

  /** Withdrawals, top-ups and transfers keep every user's list consistent. */
  lemma MoneyOperationsKeepListsConsistent(s: Store, n: string, tgt: string, amount: real, currency: Currency,
                                           now: int, u: int)
    requires Valid(s) && ListConsistent(s, u)
    ensures ListConsistent(Cards.Withdraw(s, n, amount, currency, None, None, None, now).store, u)
    ensures ListConsistent(Cards.TopUp(s, n, amount, currency, None, None, None, now).store, u)
    ensures ListConsistent(Cards.Transfer(s, n, tgt, amount, now).store, u)
  {
    BalanceChangesKeepListsConsistent(s, Cards.Withdraw(s, n, amount, currency, None, None, None, now).store, u);
    BalanceChangesKeepListsConsistent(s, Cards.TopUp(s, n, amount, currency, None, None, None, now).store, u);
    BalanceChangesKeepListsConsistent(s, Cards.Transfer(s, n, tgt, amount, now).store, u);
  }

  lemma BalanceChangesKeepListsConsistent(s: Store, s': Store, u: int)
    requires Valid(s) && Valid(s') && ListConsistent(s, u) && Cards.BalancesOnly(s, s')
    ensures ListConsistent(s', u)
  {
    if u in s'.byUser {
      var refs := s'.byUser[u];
      forall i | 0 <= i < |refs|
        ensures s'.cards[refs[i]].number in s'.byNumber
        ensures s'.byNumber[s'.cards[refs[i]].number] == refs[i]
        ensures s'.cards[refs[i]].userId == u
      {
        var m := s.cards[refs[i]].number;
        assert CardAt(s', m) == CardAt(s, m).(balance := CardAt(s', m).balance);
      }
    }
  }

  /**
   * A card update that moves a listed card to another owner breaks the
   * owner's list: the card stays listed under a user it no longer names.
   */
  lemma UpdateOwnerBreaksListConsistency(s: Store, p: Cards.CardPatch, u: int, i: nat)
    requires Valid(s) && ListConsistent(s, u) && u in s.byUser && i < |s.byUser[u]|
    requires p.number == s.cards[s.byUser[u][i]].number
    requires p.userId.Some? && p.userId.value != u
    ensures !ListConsistent(Cards.Update(s, p).store, u)
  {
    var r := Cards.Update(s, p).store;
    assert CardAt(r, p.number).userId != u;
  }

  /**
   * The cascade over a consistent list of distinct numbers owned by `u`
   * succeeds and leaves `u`'s list empty.
   */
  lemma {:induction false} DeleteOwnedCards(s: Store, u: int, ns: seq<string>)
    requires Valid(s) && (|ns| > 0 ==> u in s.byUser)
    requires forall i :: 0 <= i < |ns| ==> ns[i] in s.byNumber && CardAt(s, ns[i]).userId == u
    requires forall i, j :: 0 <= i < j < |ns| ==> ns[i] != ns[j]
    ensures DeleteCards(s, ns).outcome.Ok?
    ensures |ns| > 0 ==> Cards.GetByUserId(DeleteCards(s, ns).store, u) == []
    decreases |ns|
  {
    if |ns| > 0 {
      var d := Cards.Delete(s, ns[0]);
      assert d.outcome.Ok?;
      var rest := ns[1..];
      forall i | 0 <= i < |rest|
        ensures rest[i] in d.store.byNumber && CardAt(d.store, rest[i]).userId == u
      {
        assert rest[i] == ns[i + 1] != ns[0];
      }
      DeleteOwnedCards(d.store, u, rest);
    }
  }

  /**
   * Deleting a user whose list is consistent removes the user and every card
   * in the list: none of them is found by number afterwards and the user's
   * list is empty.
   */
  lemma DeleteUserRemovesOwnedCards(s: Store, id: int)
    requires Valid(s) && id in s.byId && ListConsistent(s, id)
    ensures var r := Delete(s, id);
            && r.outcome.Ok?
            && GetById(r.store, id).None?
            && (forall n :: n in OwnedNumbers(s, id) ==> Cards.GetByCardNumber(r.store, n).None?)
            && Cards.GetByUserId(r.store, id) == []
  {
    var s1 := s.(byId := s.byId - {id}, byPhone := s.byPhone - {s.users[id].phone});
    var ns := OwnedNumbers(s, id);
    forall i | 0 <= i < |ns| ensures ns[i] in s1.byNumber && CardAt(s1, ns[i]).userId == id {
      assert ns[i] == s.cards[s.byUser[id][i]].number;
    }
    forall i, j | 0 <= i < j < |ns| ensures ns[i] != ns[j] {
      assert s.byNumber[ns[i]] == s.byUser[id][i];
      assert s.byNumber[ns[j]] == s.byUser[id][j];
    }
    DeleteOwnedCards(s1, id, ns);
  }
  /** No live card named in `ns` belongs to `u`. */
  ghost predicate SparesOwner(s: Store, ns: seq<string>, u: int)
    requires Valid(s)
  {
    forall n :: n in ns && n in s.byNumber ==> CardAt(s, n).userId != u
  }

  /**
   * The cascade touches nothing but what it deletes: a surviving number still
   * names the same card record, no by-user entry appears or disappears, and
   * the list of a user none of whose cards is named keeps every entry.
   */
  lemma {:induction false} DeleteCardsFrame(s: Store, ns: seq<string>)
    requires Valid(s)
    ensures var r := DeleteCards(s, ns).store;
            && (forall m :: m in r.byNumber ==> r.byNumber[m] == s.byNumber[m])
            && r.byUser.Keys == s.byUser.Keys
            && (forall u :: u in s.byUser && SparesOwner(s, ns, u) ==> r.byUser[u] == s.byUser[u])
    decreases |ns|
  {
    if |ns| > 0 {
      var d := Cards.Delete(s, ns[0]);
      if d.outcome.Ok? {
        DeleteCardsFrame(d.store, ns[1..]);
        forall u | u in s.byUser && SparesOwner(s, ns, u)
          ensures SparesOwner(d.store, ns[1..], u) && d.store.byUser[u] == s.byUser[u]
        {
          assert ns[0] in ns;
          forall n | n in ns[1..] && n in d.store.byNumber
            ensures CardAt(d.store, n).userId != u
          {
            assert n in ns;
          }
        }
      }
    }
  }

  /**
   * Deleting a user leaves every other record where it was: surviving numbers
   * name the same cards, the by-user index keeps its keys, a user none of
   * whose cards is in the deleted user's list keeps that list, and when the
   * deleted user's list is consistent that is every other user.
   */
  lemma DeleteUserFrame(s: Store, id: int)
    requires Valid(s)
    ensures var r := Delete(s, id).store;
            && (forall m :: m in r.byNumber ==> r.byNumber[m] == s.byNumber[m])
            && r.byUser.Keys == s.byUser.Keys
            && (forall u :: u in s.byUser && SparesOwner(s, OwnedNumbers(s, id), u) ==>
                  r.byUser[u] == s.byUser[u])
            && (ListConsistent(s, id) ==>
                  forall u :: u in s.byUser && u != id ==> r.byUser[u] == s.byUser[u])
  {
    if id in s.byId {
      var s1 := s.(byId := s.byId - {id}, byPhone := s.byPhone - {s.users[id].phone});
      var ns := OwnedNumbers(s, id);
      assert Delete(s, id) == DeleteCards(s1, ns);
      DeleteCardsFrame(s1, ns);
      assert forall u :: SparesOwner(s1, ns, u) == SparesOwner(s, ns, u);
      if ListConsistent(s, id) {
        forall u | u in s.byUser && u != id ensures SparesOwner(s, ns, u) {
          ConsistentListSparesOthers(s, id, u);
        }
      }
    }
  }

  /** A consistent list names only cards of its own user. */
  lemma ConsistentListSparesOthers(s: Store, id: int, u: int)
    requires Valid(s) && ListConsistent(s, id) && u != id
    ensures SparesOwner(s, OwnedNumbers(s, id), u)
  {
    var ns := OwnedNumbers(s, id);
    forall n | n in ns && n in s.byNumber ensures CardAt(s, n).userId != u {
      var i :| 0 <= i < |ns| && ns[i] == n;
      assert n == s.cards[s.byUser[id][i]].number;
    }
  }
}

=== FILE: users.dfy ===
/**
 * The user registry: users indexed by a monotonic id and by phone, plain
 * password login, partial-merge update, and delete cascading into the card
 * registry.
 */
module Users {
  import opened Results
  import opened State
  import Cards

  /** User.create's result: the new store and the user it registered. */
  datatype Registered = Registered(store: Store, user: User)

  /** An update payload: `id` selects the user; every present field overwrites the stored one. */
  datatype UserPatch = UserPatch(
    id: int,
    firstName: Option<string>,
    lastName: Option<string>,
    birthday: Option<string>,
    phone: Option<string>,
    password: Option<string>)

  /**
   * The user record as the source's `update` leaves it: present fields
   * overwrite, absent ones are kept, and `id`, being both the lookup key and
   * the value written back, stays.
   */
  function Merge(u: User, p: UserPatch): (r: User)
    ensures r.id == u.id
    ensures p == UserPatch(p.id, None, None, None, None, None) ==> r == u
    ensures && p.firstName.Some? && p.lastName.Some? && p.birthday.Some? && p.phone.Some? && p.password.Some? ==>
              r == User(u.id, p.firstName.value, p.lastName.value, p.birthday.value, p.phone.value, p.password.value)
  {
    User(
      u.id,
      ValueOr(p.firstName, u.firstName),
      ValueOr(p.lastName, u.lastName),
      ValueOr(p.birthday, u.birthday),
      ValueOr(p.phone, u.phone),
      ValueOr(p.password, u.password))
  }

  /** Every card-registry field and the operation log are the same in both stores. */
  ghost predicate SameCards(s: Store, s': Store) {
    s'.log == s.log && s'.cards == s.cards && s'.byNumber == s.byNumber && s'.byUser == s.byUser
  }

  /** User.getById: the live user with that id, or nothing. */
  function GetById(s: Store, id: int): (r: Option<User>)
    requires Valid(s)
    ensures r.Some? <==> id in s.byId
    ensures r.Some? ==> r.value.id == id
  {
    if id in s.byId then Some(s.users[id]) else None
  }

  /**
   * User.getByPhone: the user record the phone index points at. The index is
   * not kept in step with deletes and updates, so the record may be a deleted
   * user's or carry another phone by now.
   */
  function GetByPhone(s: Store, phone: string): (r: Option<User>)
    requires Valid(s)
    ensures r.Some? <==> phone in s.byPhone
    ensures r.Some? ==> r.value.id == s.byPhone[phone] && r.value.id in s.users
    ensures r.Some? && r.value.id in s.byId ==> GetById(s, r.value.id) == r
  {
    if phone in s.byPhone then Some(s.users[s.byPhone[phone]]) else None
  }

  /**
   * User.create: the next id (one above every id handed out so far), indexed
   * by id and by phone; an existing entry for the same phone is overwritten.
   */
  function Create(s: Store, firstName: string, lastName: string, birthday: string, phone: string,
                  password: string): (r: Registered)
    requires Valid(s)
    ensures Valid(r.store)
    ensures r.user.id == s.lastId + 1 == r.store.lastId
    ensures forall id :: id in s.users ==> id < r.user.id
    ensures r.user.firstName == firstName && r.user.lastName == lastName && r.user.birthday == birthday
    ensures r.user.phone == phone && r.user.password == password
    ensures GetById(r.store, r.user.id) == Some(r.user)
    ensures GetByPhone(r.store, phone) == Some(r.user)
    ensures forall id :: id != r.user.id ==> GetById(r.store, id) == GetById(s, id)
    ensures forall p :: p != phone ==> GetByPhone(r.store, p) == GetByPhone(s, p)
    ensures SameCards(s, r.store)
  {
    var id := s.lastId + 1;
    var user := User(id, firstName, lastName, birthday, phone, password);
    Registered(s.(users := s.users[id := user], byId := s.byId + {id}, byPhone := s.byPhone[phone := id],
                  lastId := id),
               user)
  }

  /**
   * User.login: succeeds exactly when the phone is indexed and the indexed
   * record's password matches; both failures give the same error.
   */
  function Login(s: Store, phone: string, password: string): (r: Outcome)
    requires Valid(s)
    ensures r.Ok? <==> phone in s.byPhone && s.users[s.byPhone[phone]].password == password
    ensures r.Err? ==> r.error == BadCredentials
  {
    match GetByPhone(s, phone)
    case None => Err(BadCredentials)
    case Some(u) => if u.password != password then Err(BadCredentials) else Ok
  }

  /** User.update: merges the present fields into the stored user; neither index is touched. */
  function Update(s: Store, p: UserPatch): (r: Step)
    requires Valid(s)
    ensures Valid(r.store)
    ensures r.outcome.Ok? <==> p.id in s.byId
    ensures r.outcome.Err? ==> r == Step(s, Err(UserNotFound(p.id)))
    ensures r.store.byId == s.byId && r.store.byPhone == s.byPhone && r.store.lastId == s.lastId
    ensures SameCards(s, r.store)
    ensures r.store.users.Keys == s.users.Keys
    ensures forall id :: id in s.users && id != p.id ==> r.store.users[id] == s.users[id]
    ensures r.outcome.Ok? ==>
              var u, o := r.store.users[p.id], s.users[p.id];
              && u.id == p.id
              && (p.firstName.Some? ==> u.firstName == p.firstName.value)
              && (p.firstName.None? ==> u.firstName == o.firstName)
              && (p.lastName.Some? ==> u.lastName == p.lastName.value)
              && (p.lastName.None? ==> u.lastName == o.lastName)
              && (p.birthday.Some? ==> u.birthday == p.birthday.value)
              && (p.birthday.None? ==> u.birthday == o.birthday)
              && (p.phone.Some? ==> u.phone == p.phone.value) && (p.phone.None? ==> u.phone == o.phone)
              && (p.password.Some? ==> u.password == p.password.value)
              && (p.password.None? ==> u.password == o.password)
  {
    if p.id !in s.byId then Step(s, Err(UserNotFound(p.id)))
    else Step(s.(users := s.users[p.id := Merge(s.users[p.id], p)]), Ok)
  }

  /** The numbers of the cards in the user's by-user list, in list order. */
  function OwnedNumbers(s: Store, id: int): (ns: seq<string>)
    requires Valid(s)
    ensures id !in s.byUser ==> ns == []
    ensures id in s.byUser ==> |ns| == |s.byUser[id]|
    ensures forall i :: 0 <= i < |ns| ==> ns[i] == Cards.GetByUserId(s, id)[i].number
  {
    if id !in s.byUser then []
    else
      var refs := s.byUser[id];
      seq(|refs|, i requires 0 <= i < |refs| => s.cards[refs[i]].number)
  }

  /**
   * The cascade loop of User.delete: Card.delete on each number in turn,
   * stopping at and returning the first error. When every delete succeeds,
   * exactly the listed numbers have left the by-number index.
   */
  function DeleteCards(s: Store, ns: seq<string>): (r: Step)
    requires Valid(s)
    ensures Valid(r.store)
    ensures r.store.log == s.log && r.store.cards == s.cards && Cards.SameUsers(s, r.store)
    ensures r.store.byNumber.Keys <= s.byNumber.Keys
    ensures r.outcome.Ok? ==> r.store.byNumber.Keys == s.byNumber.Keys - set n | n in ns
    ensures r.outcome.Err? ==>
              exists k :: 0 <= k < |ns|
                && r.store.byNumber.Keys == s.byNumber.Keys - (set n | n in ns[..k])
                && Cards.Delete(r.store, ns[k]) == r
    decreases |ns|
  {
    if |ns| == 0 then Step(s, Ok)
    else
      var d := Cards.Delete(s, ns[0]);
      if d.outcome.Err? then
        assert ns[..0] == [];
        d
      else
        var r := DeleteCards(d.store, ns[1..]);
        assert r.outcome.Err? ==> forall k :: 0 <= k < |ns| - 1 ==> ns[1..][..k] == ns[..k + 1][1..];
        r
  }

  /**
   * User.delete: an unknown id is an error with no change. Otherwise the id
   * and the user's current phone leave their indexes first, and then the
   * cards in the user's list are deleted; a cascade error is returned, but the
   * user stays removed.
   */
  function Delete(s: Store, id: int): (r: Step)
    requires Valid(s)
    ensures Valid(r.store)
    ensures id !in s.byId ==> r == Step(s, Err(UserNotFound(id)))
    ensures id in s.byId ==>
              && r.store.byId == s.byId - {id}
              && r.store.byPhone == s.byPhone - {s.users[id].phone}
              && r.store.users == s.users && r.store.lastId == s.lastId
    ensures r.store.log == s.log && r.store.cards == s.cards
    ensures r.store.byNumber.Keys <= s.byNumber.Keys
    ensures id in s.byId && r.outcome.Ok? ==>
              r.store.byNumber.Keys == s.byNumber.Keys - set n | n in OwnedNumbers(s, id)
    ensures id in s.byId && r.outcome.Err? ==>
              var ns := OwnedNumbers(s, id);
              exists k :: 0 <= k < |ns|
                && r.store.byNumber.Keys == s.byNumber.Keys - (set n | n in ns[..k])
                && Cards.Delete(r.store, ns[k]) == r
  {
    if id !in s.byId then Step(s, Err(UserNotFound(id)))
    else
      var phone := s.users[id].phone;
      var s1 := s.(byId := s.byId - {id}, byPhone := s.byPhone - {phone});
      DeleteCards(s1, OwnedNumbers(s, id))
  }
}
